=== FILE: README.md ===
# Board-game sticker renderer, modelled in Dafny

The renderer draws a round sticker for a board game on a 400 by 400
canvas. It takes a difficulty score and three player-count ranges:
official, community and preferred. The sticker has four layers:

1. a background circle;
2. a ring of eight pie segments, one per player count 1..8, starting at the
   top and running clockwise. Each segment is coloured preferred, community
   or default, first match wins, and is labelled with its count;
3. an overlay ring over the official range. This is a stroked arc, then a
   background "gap mask" wedge over the rest of the circle when the range
   touches neither end, then a background disk that clips the inside;
4. a hexagon marker with the difficulty value on it.

The model is functional. `Renderer.RenderSticker` maps the sticker data to
a list of draw commands: `Disk`, `Wedge`, `Label`, `Hexagon` and `Text`.
Each command carries its own fill, stroke and line width instead of reading
shared context state. Angles are whole numbers:

- wedges use eighths of a turn, counted clockwise from the top;
- labels use sixteenths from the same origin;
- hexagon vertices use sixths of a turn with no offset.

Radii are exact reals. `Math.ceil` is modelled by `Canvas.Ceil`.

Canvas arcs follow the clockwise arc rule of the HTML canvas 2D context's
`arc()` method. A difference of a whole turn or more draws the full circle.
Otherwise the arc sweeps the difference modulo a turn (`Canvas.Sweep`,
`Canvas.InArc`).

`Canvas.RingColor` is a painter's reading of a command list. It gives the
colour of the last command that paints the whole arc of one segment cell
at a given distance from the centre. With it, the layer order becomes
statements about the finished sticker:

- between radius 100 and 179 each cell shows its classified colour;
- the white border lies between 179 and 181;
- the background circle shows from 181 to 200;
- in the overlay band, 90 to 100, the official colour shows over the
  official counts, and elsewhere the background if the mask applies, else
  the segment colour;
- from radius 49 out to 90, the background is the last layer covering
  each whole cell arc (the hexagon's corners still cover part of each arc
  out to about 56, see "Left out");
- within radius 44, the hexagon's fill shows.

The renderer validates nothing, so range bounds may be any integers,
including `min > max`. The model accepts them all and rejects none.

The hexagon's fill `#0a9396` and outline `#94d2bd` are fixed in the
code, not taken from the theme. The background circle's radius is half the
height, not half the smaller side. In the default theme the community and
default colours are the same (`#e9c46a`). Precedence is therefore stated on
the classification (`Segments.Shade`), where the two stay distinct.

Source field names are shortened: `playersRangeOfficial`,
`playersRangeCommunity` and `playersRangePreffered` become `official`,
`community` and `preferred`.

## Model

| member | source | states |
|---|---|---|
| `Canvas.Ceil` | lib/sticker.ts:141-151 | the result is the least integer not below its argument, as `Math.ceil` promises |
| `Canvas.Sweep` | lib/sticker.ts:127 | a clockwise arc sweeps between 0 and a whole turn; it is the whole turn exactly when the end is a turn or more past the start; an arc that neither wraps nor exceeds a turn sweeps its angle difference; an arc whose end lies less than a turn before its start wraps and sweeps that difference plus a turn; below a whole turn the sweep is the difference modulo a turn |
| `Canvas.ForwardArcCells` | lib/sticker.ts:186 | an arc whose ends lie in order within one turn covers exactly the cells between its ends |
| `Canvas.WrappedArcCells` | lib/sticker.ts:141 | an arc whose end comes before its start wraps through the top: it covers the cells from the start to the end of the turn and from the top up to the end |
| `Canvas.HexagonColor` | lib/sticker.ts:87-96 | a filled and outlined regular hexagon shows its fill or its outline or nothing over a whole cell arc; nothing exactly when the circle lies half a line width beyond the apothem and not half a line width inside it |
| `Canvas.HexagonCoverBounds` | lib/sticker.ts:87-96 | a filled and outlined regular hexagon covers every whole cell arc with its fill out to 0.86 of its circumradius less half the line width, and covers none beyond 0.87 of it plus half the line width, the apothem lying between the two |
| `Canvas.RingColorAppend` | lib/sticker.ts:65-68 | what is drawn later hides what was drawn before wherever it paints; the earlier colour stays only where the later commands paint nothing |
| `Canvas.RingColorIsLastCover` | lib/sticker.ts:65-68 | the colour seen is that of a command that paints the arc with no later command painting it |
| `Canvas.RingColorSource` | lib/sticker.ts:65-68 | nothing is seen exactly when no command paints the arc; any colour seen was painted by some command |
| `Segments.Classify` | lib/sticker.ts:173-180 | the first-match chain gives a shade whose range admits the count (default admits every count), and no admitting shade outranks it |
| `Segments.ClassifyIsHighestApplicable` | lib/sticker.ts:173-180 | the first-match chain picks, among the shades whose range admits the count (default always does), the one of highest priority |
| `Segments.PreferredIgnoresCommunity` | lib/sticker.ts:174-175 | a count in the preferred range gets the preferred shade whatever the community range is |
| `Segments.CommunityBeforeDefault` | lib/sticker.ts:176-180 | outside the preferred range a count is community if and only if the community range admits it, and default otherwise |
| `Segments.WideningNeverDemotes` | lib/sticker.ts:173-180 | widening the preferred or community range never gives a count a lower-priority shade |
| `Segments.SegmentWedge` | lib/sticker.ts:182-190 | the wedge of a step starts at that step's eighth and spans one eighth, filled with the colour its player count is classified to and outlined in the stroke colour |
| `Segments.SegmentLabel` | lib/sticker.ts:192-198 | the label of a step reads the step's player count and never covers a whole cell arc |
| `Segments.SegmentsFrom` | lib/sticker.ts:169-199 | the loop from a step on emits two commands per remaining step, the wedge of step k at position 2(k - step) and its label right after |
| `Segments.PlayerSegments` | lib/sticker.ts:157-200 | exactly sixteen commands: for each of the eight steps, its wedge and then its label |
| `Segments.SegmentsPartitionTurn` | lib/sticker.ts:166-171 | the eight wedges are one eighth wide, contiguous, start at the top and end a full turn later; each cell lies under exactly one wedge, the one of player count cell + 1 |
| `Segments.LabelAtSegmentMiddle` | lib/sticker.ts:192-198 | label k reads k + 1 and sits at the middle angle of wedge k, at three quarters of its radius |
| `Segments.WedgeColor` | lib/sticker.ts:184-190 | a segment wedge paints only over its own cell |
| `Segments.SegmentCommandColor` | lib/sticker.ts:184-198 | among the sixteen segment commands only the wedge of a cell paints over that cell; labels never cover a whole cell arc |
| `Segments.SegmentRingColor` | lib/sticker.ts:174-190 | seen alone, the ring shows each cell's classified colour inside the white border band and the border colour within it |
| `Segments.SegmentRingOutside` | lib/sticker.ts:162-190 | beyond the border band the segment ring paints nothing |
| `Overlay.OfficialArc` | lib/sticker.ts:120-130 | the stroked arc paints the official colour over exactly the cells from min - 1 to max, in the band ring-width wide that ends at the ring radius, and nothing else away from the centre |
| `Overlay.GapMask` | lib/sticker.ts:134-145 | the mask reaches the ring radius rounded up, less than one pixel beyond it, and paints the background over exactly the cells from max round to min - 1, out to that radius |
| `Overlay.InnerClip` | lib/sticker.ts:147-154 | the clip reaches the inner edge of the ring rounded up, less than one pixel beyond it, and paints the background over every cell out to that radius |
| `Overlay.OfficialOverlay` | lib/sticker.ts:109-155 | the overlay is two or three commands, starting with the official arc and always ending with the inner clip disk |
| `Overlay.GapMaskIff` | lib/sticker.ts:134-145 | a background wedge appears, and the overlay has three commands, exactly when the official minimum is above 1 and the maximum below 8; the mask then sits between arc and clip |
| `Overlay.ArcCoversOfficialCells` | lib/sticker.ts:118-127 | for a valid official range the stroked arc covers exactly the cells of the official player counts |
| `Overlay.MaskCoversComplement` | lib/sticker.ts:134-141 | for a valid official range with a mask, the mask covers exactly the cells the arc leaves out |
| `Overlay.MaskNeverOverlapsArc` | lib/sticker.ts:120-141 | for any range with a mask, unless it is inverted by a whole turn or more, mask and arc never share a cell |
| `Overlay.GapMaskReferenceCases` | lib/sticker.ts:134 | official ranges (1,8), (1,5) and (3,8) draw no mask; (3,7) and (2,2) do |
| `Difficulty.VerticesFrom` | lib/sticker.ts:91-93 | the vertex loop from index i on yields the angles i, i + 1, ... up to 5 sixths of a turn |
| `Difficulty.DifficultyMarker` | lib/sticker.ts:80-107 | the marker is a hexagon of circumradius 0.135 of the smaller side, filled `#0a9396` and outlined `#94d2bd` whatever the theme, with a line one hundredth of the smaller side, followed by the text of the difficulty value in the theme's difficulty colour |
| `Difficulty.HexagonIsRegular` | lib/sticker.ts:81-95 | the hexagon has six vertices, the first on the +x axis with no quarter-turn offset, and every edge, the closing one included, spans one sixth of a turn |
| `Difficulty.EveryCellHoldsEdgeMidpoint` | lib/sticker.ts:91-94 | every one of the eight segment cells holds the midpoint of one edge of the unrotated hexagon |
| `Renderer.BackgroundCircle` | lib/sticker.ts:73-78 | the background circle paints the background over every cell out to half the canvas height and nothing beyond |
| `Renderer.RenderSticker` | lib/sticker.ts:31-71 | the sticker starts with the background circle and has one background command, sixteen segment commands, the overlay and two marker commands |
| `Renderer.LayerOrder` | lib/sticker.ts:65-68 | the layers appear in the order background, segments, overlay, marker, each complete before the next |
| `Renderer.CanvasRadii` | lib/sticker.ts:83-162 | on the 400 by 400 canvas the segment radius is 180, the overlay radius 100, the official arc's radius 95, the mask radius 100, the clip radius 90 and the hexagon radius 54 |
| `Renderer.MarkerOnCanvas` | lib/sticker.ts:83-99 | on the 400 by 400 canvas the hexagon's circumradius is 54, its outline 4 wide, and the text 40 pixels high |
| `Renderer.MarkerOffRing` | lib/sticker.ts:80-107 | from radius 49 outward, past the hexagon's apothem plus half its outline, the difficulty marker paints no whole cell arc |
| `Renderer.MarkerCoversCentre` | lib/sticker.ts:86-96 | within radius 44 the difficulty marker shows the hexagon's fill over every cell |
| `Renderer.OverlayRingColor` | lib/sticker.ts:120-154 | seen alone, the overlay shows the clip's background up to radius 90, then the mask's background up to 100 where it applies, then the official colour over the arc's cells up to 100, and nothing else |
| `Renderer.StickerLayers` | lib/sticker.ts:65-68 | the finished sticker shows the marker where it paints, else the overlay where it paints, else the segments where they paint, else the background |
| `Renderer.SegmentZoneColor` | lib/sticker.ts:173-190 | on the finished sticker, between radius 100 and 179, each cell shows the colour its player count is classified to |
| `Renderer.BorderZoneColor` | lib/sticker.ts:182-190 | between radius 179 and 181 every cell shows the white border |
| `Renderer.OuterZoneColor` | lib/sticker.ts:73-78 | beyond the border, up to radius 200, the background circle shows |
| `Renderer.BeyondCircle` | lib/sticker.ts:73-78 | past radius 200 nothing is painted |
| `Renderer.InnerZoneColor` | lib/sticker.ts:147-154 | from radius 49 out to 90 the clip's background is the last layer covering each whole cell arc, whatever the ranges |
| `Renderer.HexagonZoneColor` | lib/sticker.ts:86-96 | within radius 44 the hexagon's fill shows, whatever the ranges, since the marker is drawn last |
| `Renderer.OfficialBandColor` | lib/sticker.ts:120-154 | in the overlay band, for any range values, a cell shows the background where the mask sweeps, else the official colour where the arc sweeps, else its segment colour |
| `Renderer.OfficialBandColorValid` | lib/sticker.ts:120-145 | in the overlay band, for a valid official range, a cell shows the official colour if its count is official, else the background if the mask applies, else its segment colour |
| `Renderer.DefaultScenario` | lib/sticker.ts:31-48 | the default sticker has 22 commands; counts 2, 1 and 8 get the preferred, community and default shades and colours |
| `Renderer.DefaultBand` | lib/sticker.ts:35-38 | on the default sticker the overlay band shows the official colour over three to seven players and the background elsewhere |

## Left out

- The `canvas` library is not modelled: canvas creation, the raster buffer
  and `toDataURL`. The command list is the model's output; encoding it as
  an image string is left to that foreign code.
- Floating point is not modelled. Angles are whole eighths, sixteenths or
  sixths, and radii are exact reals. The rounding of doubles in the radian
  angles and in products such as 400 times 0.135 is not modelled.
- `Math.cos` and `Math.sin` label coordinates are not computed. A label
  carries its distance and middle angle instead.
- `difficulty.toFixed(1)` formatting is not modelled. `Text` carries the
  difficulty value itself.
- Font strings are not modelled: family, weight, `textAlign` and
  `textBaseline`. A label or text carries only its pixel size.
- Range bounds are integers. The source's JavaScript numbers could be
  fractional.
- `Canvas.RingColor` follows only whole-cell coverage. Marks that cover
  part of a cell arc are not followed: labels, the difficulty text, the
  radial edges of stroked wedges away from the centre, the outline's miter
  corners beyond the circumradius, and anti-aliasing.
- `Segments.WedgeColor` ignores the wedge's radial outline near the
  centre. The outline is 2 wide, so within about 2.6 of the centre it
  covers the wedge's own whole cell arc, and within about 1.4 the arcs of
  both neighbouring cells as well. On the finished sticker the inner clip
  and the hexagon paint over that region.
- `Segments.SegmentCommandColor` ignores the same near-centre outline:
  within about 2.6 of the centre, and about 1.4 for neighbouring cells.
- `Segments.SegmentRingColor` claims the classified fill down to the
  centre. Within about 2.6 of it the source shows the white outline there.
- `Overlay.OfficialArc` ignores its 10-wide radial edges. Within about 7.1
  of the centre they cover the whole arcs of the cells next to the arc,
  though the contract says it paints nothing below the band. The inner clip
  then paints over them.
- `Canvas.HexagonColor` reads the hexagon as a regular one. Between half
  an outline inside and half an outline beyond its apothem (about 44.8 to
  48.8 on the canvas) a cell arc shows the outline near an edge midpoint
  and the fill toward the corners; the reading reports the outline colour
  there, and no colour lemma asks about that band. From about 48.8 out to
  about 56.3, where the mitred outline ends, the hexagon's corners still
  cover part of every cell arc, up to about four fifths of the circle at
  49; the reading reports the layer beneath, so `Renderer.InnerZoneColor`
  and `Renderer.MarkerOffRing` speak of whole-arc cover only.
- The `game` field is carried but unused, as in the source.
- Determinism holds by construction, since every member is a pure function.
- lib/boardgamegeek.ts, lib/xml2js.ts, lib/types.ts, pages/api/sticker.ts
  and pages/index.tsx are not part of this model. They are network I/O,
  XML parsing glue, type declarations and HTTP and UI glue.

=== FILE: canvas.dfy ===
/** Draw commands standing for the renderer's canvas calls, the arc rule of
    the canvas 2D context, and a painter's reading of a command list.

    Every path the renderer builds is centred at the canvas centre, so no
    command carries a centre. Wedge angles are whole eighths of a turn counted
    clockwise from the top of the circle: eighth e is canvas angle
    e * pi/4 - pi/2. Label angles are sixteenths on the same origin. Hexagon
    vertices are sixths of a turn with no offset: sixth v is canvas angle
    v * pi/3, measured from the +x axis. */
module Canvas {
  import opened StickerTypes

  /** How a path is painted. The canvas keeps fill colour, stroke colour and
      line width as context state; here each command carries its own. When
      both are used, the fill is painted before the stroke. */
  datatype Paint =
    | Fill(fill: Color)
    | Stroke(stroke: Color, lineWidth: real)
    | FillStroke(fill: Color, stroke: Color, lineWidth: real)

  datatype Command =
      /** A full circle. */
    | Disk(paint: Paint, radius: real)
      /** A pie path: centre, clockwise arc from startEighth to endEighth, back to the centre. */
    | Wedge(paint: Paint, radius: real, startEighth: int, endEighth: int)
      /** The decimal text of `count`, centred `distance` from the centre at angle midSixteenth. */
    | Label(count: int, color: Color, fontPx: real, distance: real, midSixteenth: int)
      /** A closed regular hexagon through the given vertices, all at distance
          circumradius: filled, then outlined with a line of width lineWidth. */
    | Hexagon(fill: Color, outline: Color, lineWidth: real, circumradius: real, vertexSixths: seq<int>)
      /** The difficulty value, centred on the canvas. */
    | Text(value: real, color: Color, fontPx: real)

  /** Math.ceil on an exact real: the least integer not below x. */
  function Ceil(x: real): (c: int)
    ensures x <= c as real < x + 1.0
  {
    var f := x.Floor;
    if f as real == x then f else f + 1
  }

  /** Eighths swept by a clockwise canvas arc from start to end: a
      difference of a whole turn or more draws the full circle; otherwise the
      arc runs clockwise from the start point to the end point, so it sweeps
      the difference modulo a turn (zero when the two points coincide). */
  function Sweep(start: int, end: int): (n: int)
    ensures 0 <= n <= 8
    ensures n == 8 <==> end - start >= 8
    ensures 0 <= end - start <= 8 ==> n == end - start
    ensures -8 < end - start < 0 ==> n == end - start + 8
    ensures end - start < 8 ==> (n - (end - start)) % 8 == 0
  {
    if end - start >= 8 then 8 else (end - start) % 8
  }

  /** True when the cell [cell, cell + 1) in eighths lies under the arc
      from start to end. Cells are taken modulo a turn. */
  predicate InArc(cell: int, start: int, end: int) {
    (cell - start) % 8 < Sweep(start, end)
  }

  /** An arc that neither wraps nor exceeds a turn covers exactly the cells
      between its ends. */
  lemma ForwardArcCells(cell: int, start: int, end: int)
    requires 0 <= start <= end <= 8 && 0 <= cell < 8
    ensures InArc(cell, start, end) <==> start <= cell < end
  {
    if start <= cell {
      assert (cell - start) % 8 == cell - start;
    } else {
      assert (cell - start) % 8 == cell - start + 8;
    }
  }

  /** An arc whose end lies before its start wraps through the top of the
      circle: it covers the cells from its start to the end of the turn and
      from the top up to its end. */
  lemma WrappedArcCells(cell: int, start: int, end: int)
    requires 0 <= end < start <= 8 && 0 <= cell < 8
    ensures InArc(cell, start, end) <==> (start <= cell || cell < end)
  {
    if start <= cell {
      assert (cell - start) % 8 == cell - start;
    } else {
      assert (cell - start) % 8 == cell - start + 8;
    }
  }

  /** The colour a paint leaves over a whole cell arc: `inside` says whether
      the arc lies in the filled region, `offset` is its signed radial distance
      from the path's circular outline. The stroke band is lineWidth wide,
      centred on the outline, and lies over the fill. */
  function PaintColor(paint: Paint, inside: bool, offset: real): Option<Color> {
    match paint
    case Fill(f) => if inside then Some(f) else None
    case Stroke(s, w) => if -w / 2.0 <= offset <= w / 2.0 then Some(s) else None
    case FillStroke(f, s, w) =>
      if -w / 2.0 <= offset <= w / 2.0 then Some(s)
      else if inside then Some(f)
      else None
  }

  /** x lies below the apothem R * sqrt(3) / 2 of a regular hexagon of
      circumradius R >= 0; compared on squares to avoid the root. */
  predicate BelowApothem(x: real, circumradius: real) {
    x < 0.0 || 4.0 * x * x < 3.0 * circumradius * circumradius
  }

  /** x lies beyond the apothem of a regular hexagon of circumradius R >= 0. */
  predicate BeyondApothem(x: real, circumradius: real) {
    x > 0.0 && 4.0 * x * x > 3.0 * circumradius * circumradius
  }

  /** The colour a regular hexagon, vertices at whole sixths of a turn,
      leaves over a whole cell arc at distance rho. Every cell arc holds the
      midpoint of one of its edges (Difficulty.EveryCellHoldsEdgeMidpoint),
      where the outline is nearest the centre. So the fill covers the arc
      while the circle stays half a line width inside the apothem, and the
      arc is not wholly painted once the circle lies half a line width
      beyond it. In between the outline crosses the arc: it shows near the
      edge midpoint and the fill toward the corners, and the reading gives
      the outline colour. */
  function HexagonColor(fill: Color, outline: Color, lineWidth: real, circumradius: real, rho: real): (r: Option<Color>)
    ensures r.Some? ==> r.value == fill || r.value == outline
    ensures r.None? <==> !BelowApothem(rho + lineWidth / 2.0, circumradius)
                         && BeyondApothem(rho - lineWidth / 2.0, circumradius)
    ensures 0.0 <= lineWidth && BeyondApothem(rho - lineWidth / 2.0, circumradius) ==> r.None?
  {
    if BelowApothem(rho + lineWidth / 2.0, circumradius) then Some(fill)
    else if BeyondApothem(rho - lineWidth / 2.0, circumradius) then None
    else Some(outline)
  }

  /** Bounds of the hexagon's reading without the square root: its fill
      covers every whole cell arc out to 0.86 of the circumradius less half
      the line width, and it covers none beyond 0.87 of it plus half the
      line width. */
  lemma HexagonCoverBounds(fill: Color, outline: Color, lineWidth: real, circumradius: real, rho: real)
    requires 0.0 <= circumradius && 0.0 <= lineWidth
    ensures rho + lineWidth / 2.0 < 0.86 * circumradius
        ==> HexagonColor(fill, outline, lineWidth, circumradius, rho) == Some(fill)
    ensures rho - lineWidth / 2.0 > 0.87 * circumradius
        ==> HexagonColor(fill, outline, lineWidth, circumradius, rho).None?
  {
    var inner := rho + lineWidth / 2.0;
    var outer := rho - lineWidth / 2.0;
    var c := circumradius;
    if 0.0 <= inner < 0.86 * c {
      SquareBelow(inner, 0.86 * c);
      assert inner * inner < 0.7396 * (c * c);
    }
    if outer > 0.87 * c {
      SquareBelow(0.87 * c, outer);
      assert outer * outer > 0.7569 * (c * c);
      if outer < inner {
        SquareBelow(outer, inner);
      }
      assert !BelowApothem(inner, c);
    }
  }

  /** Squaring is strictly increasing on the non-negative reals. */
  lemma SquareBelow(a: real, b: real)
    requires 0.0 <= a < b
    ensures a * a < b * b
  {
    var d := b - a;
    assert b * b == a * a + 2.0 * a * d + d * d;
    assert a * d >= 0.0;
    assert d * d > 0.0;
  }

  /** The colour `cmd` leaves over the whole arc of `cell` at distance `rho`
      from the centre, or None when it paints none of that arc or only part
      of it. Labels and the difficulty text are taken as never covering a
      whole cell arc, and so are the radial edges of a stroked wedge, which
      are thin only away from the centre: within a few pixels of it they do
      cover whole cell arcs, and the reading ignores that. */
  function ArcColor(cmd: Command, cell: int, rho: real): Option<Color> {
    match cmd
    case Disk(p, r) => PaintColor(p, rho <= r, rho - r)
    case Wedge(p, r, s, e) => if InArc(cell, s, e) then PaintColor(p, rho <= r, rho - r) else None
    case Label(_, _, _, _, _) => None
    case Hexagon(f, s, w, r, _) => HexagonColor(f, s, w, r, rho)
    case Text(_, _, _) => None
  }

  /** The painter's reading of a command list: the colour of the last
      command that paints the whole arc, which hides everything under it. */
  function RingColor(cmds: seq<Command>, cell: int, rho: real): Option<Color>
    decreases |cmds|
  {
    if |cmds| == 0 then None
    else
      var top := ArcColor(cmds[|cmds| - 1], cell, rho);
      if top.Some? then top else RingColor(cmds[..|cmds| - 1], cell, rho)
  }

  /** Drawing b after a leaves a's colour only where b paints nothing. */
  lemma {:induction false} RingColorAppend(a: seq<Command>, b: seq<Command>, cell: int, rho: real)
    ensures RingColor(a + b, cell, rho)
         == if RingColor(b, cell, rho).Some? then RingColor(b, cell, rho) else RingColor(a, cell, rho)
    decreases |b|
  {
    if |b| == 0 {
      assert a + b == a;
    } else {
      var ab := a + b;
      var b' := b[..|b| - 1];
      assert ab[|ab| - 1] == b[|b| - 1];
      assert ab[..|ab| - 1] == a + b';
      RingColorAppend(a, b', cell, rho);
    }
  }

  /** The colour seen is that of a command which paints the whole arc and
      after which no command paints it. */
  lemma {:induction false} RingColorIsLastCover(cmds: seq<Command>, cell: int, rho: real, i: int)
    requires 0 <= i < |cmds|
    requires ArcColor(cmds[i], cell, rho).Some?
    requires forall j :: i < j < |cmds| ==> ArcColor(cmds[j], cell, rho).None?
    ensures RingColor(cmds, cell, rho) == ArcColor(cmds[i], cell, rho)
    decreases |cmds|
  {
    if i < |cmds| - 1 {
      var init := cmds[..|cmds| - 1];
      assert init[i] == cmds[i];
      forall j | i < j < |init|
        ensures ArcColor(init[j], cell, rho).None?
      {
        assert init[j] == cmds[j];
      }
      RingColorIsLastCover(init, cell, rho, i);
    }
  }

  /** Nothing is seen exactly when no command paints the whole arc; and
      whatever is seen was painted by some command of the list. */
  lemma {:induction false} RingColorSource(cmds: seq<Command>, cell: int, rho: real)
    ensures RingColor(cmds, cell, rho).None?
        <==> forall j :: 0 <= j < |cmds| ==> ArcColor(cmds[j], cell, rho).None?
    ensures RingColor(cmds, cell, rho).Some?
        ==> exists j :: 0 <= j < |cmds| && ArcColor(cmds[j], cell, rho) == RingColor(cmds, cell, rho)
    decreases |cmds|
  {
    if |cmds| > 0 {
      var init := cmds[..|cmds| - 1];
      RingColorSource(init, cell, rho);
      forall j | 0 <= j < |init|
        ensures init[j] == cmds[j]
      {
      }
    }
  }
}

=== FILE: difficulty.dfy ===
/** The difficulty marker: a regular hexagon at the centre of the sticker
    with the difficulty value written on it. */
module Difficulty {
  import opened StickerTypes
  import opened Canvas

  /** Circumradius of the hexagon: 13.5% of the smaller side. */
  function HexagonRadius(width: int, height: int): real {
    MinSize(width, height) * 0.135
  }

  /** Fill and outline of the hexagon; fixed, not taken from the theme. */
  const HexagonFill: Color := "#0a9396"
  const HexagonOutline: Color := "#94d2bd"

  /** Number of hexagon vertices. */
  const Corners: int := 6

  /** The vertex angles i, i + 1, ..., 5 in sixths of a turn, one per
      iteration of the drawing loop. */
  function VerticesFrom(i: int): (r: seq<int>)
    requires 0 <= i <= Corners
    ensures |r| == Corners - i
    ensures forall j :: 0 <= j < |r| ==> r[j] == i + j
    decreases Corners - i
  {
    if i == Corners then [] else [i] + VerticesFrom(i + 1)
  }

  /** The hexagon, then the difficulty text over it. */
  function DifficultyMarker(width: int, height: int, difficulty: real, theme: ColorTheme): (r: seq<Command>)
    ensures |r| == 2 && r[0].Hexagon? && r[1].Text?
    ensures r[0].circumradius == HexagonRadius(width, height)
    ensures r[0].fill == HexagonFill && r[0].outline == HexagonOutline
    ensures r[0].lineWidth == MinSize(width, height) / 100.0
    ensures r[1].value == difficulty && r[1].color == theme.difficultyColor
  {
    [Hexagon(HexagonFill, HexagonOutline, MinSize(width, height) / 100.0,
             HexagonRadius(width, height), VerticesFrom(0)),
     Text(difficulty, theme.difficultyColor, MinSize(width, height) * 0.1)]
  }

  /** Sixths of a turn spanned by the edge from vertex i to the next one,
      the last vertex joining back to the first as closePath does. */
  function EdgeSixths(v: seq<int>, i: int): int
    requires 0 <= i < |v|
  {
    (v[(i + 1) % |v|] - v[i]) % Corners
  }

  /** The hexagon is regular and unrotated: six vertices, the first on the
      +x axis, and every edge, the closing one included, spans one sixth of a
      turn. */
  lemma HexagonIsRegular(width: int, height: int, difficulty: real, theme: ColorTheme)
    ensures var v := DifficultyMarker(width, height, difficulty, theme)[0].vertexSixths;
      |v| == Corners && v[0] == 0 && forall i :: 0 <= i < Corners ==> EdgeSixths(v, i) == 1
  {
    var v := VerticesFrom(0);
    forall i | 0 <= i < Corners
      ensures EdgeSixths(v, i) == 1
    {
      if i < 5 {
        assert (i + 1) % 6 == i + 1;
        assert v[i + 1] - v[i] == 1;
      } else {
        assert (i + 1) % 6 == 0;
        assert v[0] - v[5] == -5;
      }
    }
  }

  /** Every cell arc holds the midpoint of one hexagon edge, which the
      reading of a hexagon relies on. In 120ths of a turn from the +x axis,
      cell c spans 15c - 30 to 15c - 15 and the edge from vertex k to the
      next has its midpoint at 20 v[k] + 10. */
  lemma EveryCellHoldsEdgeMidpoint(width: int, height: int, difficulty: real, theme: ColorTheme, cell: int)
    requires 0 <= cell < Steps
    ensures var v := DifficultyMarker(width, height, difficulty, theme)[0].vertexSixths;
      exists k :: 0 <= k < |v| && (20 * v[k] + 10 - (15 * cell - 30)) % 120 <= 15
  {
    var v := VerticesFrom(0);
    assert DifficultyMarker(width, height, difficulty, theme)[0].vertexSixths == v;
    var k := [4, 5, 0, 1, 1, 2, 3, 4][cell];
    assert (20 * v[k] + 10 - (15 * cell - 30)) % 120 <= 15;
  }
}

=== FILE: overlay.dfy ===
/** The official-range overlay: a stroked arc over the official player
    counts, a background wedge masking the rest of the circle when the range
    touches neither end of the turn, and a background disk clipping the
    inside of the ring. */
module Overlay {
  import opened StickerTypes
  import opened Canvas

  /** Radius of the overlay ring: a quarter of the smaller side. */
  function OverlayRadius(width: int, height: int): real {
    MinSize(width, height) * 0.25
  }

  /** Width of the overlay ring. */
  const RingWidth: real := 10.0

  /** The gap mask is drawn only when the official range starts above one
      player and ends below eight. */
  predicate MaskApplies(official: PlayersRange) {
    official.minPlayers > 1 && official.maxPlayers < Steps
  }

  /** The stroked pie path from eighth min - 1 to eighth max, its outline
      centred half a ring width inside the ring radius. */
  function OfficialArc(width: int, height: int, official: PlayersRange, theme: ColorTheme): (a: Command)
    ensures forall cell, rho ::
      ArcColor(a, cell, rho)
        == if InArc(cell, official.minPlayers - 1, official.maxPlayers)
              && OverlayRadius(width, height) - RingWidth <= rho <= OverlayRadius(width, height)
           then Some(theme.officialPlayersColor) else None
  {
    Wedge(Stroke(theme.officialPlayersColor, RingWidth),
          OverlayRadius(width, height) - RingWidth * 0.5,
          official.minPlayers - 1, official.maxPlayers)
  }

  /** The background pie over the rest of the turn, from eighth max back
      round to eighth min - 1, out to the ring radius rounded up. */
  function GapMask(width: int, height: int, official: PlayersRange, theme: ColorTheme): (m: Command)
    ensures m.Wedge? && OverlayRadius(width, height) <= m.radius < OverlayRadius(width, height) + 1.0
    ensures forall cell, rho ::
      ArcColor(m, cell, rho)
        == if InArc(cell, official.maxPlayers, official.minPlayers - 1) && rho <= m.radius
           then Some(theme.backgroundColor) else None
  {
    Wedge(Fill(theme.backgroundColor), Ceil(OverlayRadius(width, height)) as real,
          official.maxPlayers, official.minPlayers - 1)
  }

  /** The background disk inside the ring, its radius rounded up. */
  function InnerClip(width: int, height: int, theme: ColorTheme): (c: Command)
    ensures c.Disk? && OverlayRadius(width, height) - RingWidth <= c.radius < OverlayRadius(width, height) - RingWidth + 1.0
    ensures forall cell, rho ::
      ArcColor(c, cell, rho) == if rho <= c.radius then Some(theme.backgroundColor) else None
  {
    Disk(Fill(theme.backgroundColor), Ceil(OverlayRadius(width, height) - RingWidth) as real)
  }

  /** The overlay layer: arc, then the gap mask when it applies, then the
      inner clip, which is always painted and always last. */
  function OfficialOverlay(width: int, height: int, pd: PlayerStickerData, theme: ColorTheme): (r: seq<Command>)
    ensures 2 <= |r| <= 3
    ensures r[0] == OfficialArc(width, height, pd.official, theme)
    ensures r[|r| - 1] == InnerClip(width, height, theme)
  {
    [OfficialArc(width, height, pd.official, theme)]
    + (if MaskApplies(pd.official) then [GapMask(width, height, pd.official, theme)] else [])
    + [InnerClip(width, height, theme)]
  }

  /** A background-filled wedge appears in the overlay exactly when the
      official range starts above one player and ends below eight, and it is
      then the gap mask, between the arc and the clip. */
  lemma GapMaskIff(width: int, height: int, pd: PlayerStickerData, theme: ColorTheme)
    ensures var r := OfficialOverlay(width, height, pd, theme);
      (exists i :: 0 <= i < |r| && r[i].Wedge? && r[i].paint.Fill?)
      <==> pd.official.minPlayers > 1 && pd.official.maxPlayers < Steps
    ensures var r := OfficialOverlay(width, height, pd, theme);
      |r| == 3 <==> pd.official.minPlayers > 1 && pd.official.maxPlayers < Steps
    ensures var r := OfficialOverlay(width, height, pd, theme);
      |r| == 3 ==> r[1] == GapMask(width, height, pd.official, theme)
  {
    var r := OfficialOverlay(width, height, pd, theme);
    if MaskApplies(pd.official) {
      assert r[1].Wedge? && r[1].paint.Fill?;
    } else {
      assert |r| == 2;
    }
  }

  /** For a valid official range the arc covers exactly the cells of the
      official player counts. */
  lemma ArcCoversOfficialCells(official: PlayersRange, cell: int, width: int, height: int, theme: ColorTheme)
    requires official.Valid() && 0 <= cell < Steps
    ensures var a := OfficialArc(width, height, official, theme);
      InArc(cell, a.startEighth, a.endEighth) <==> official.Contains(cell + 1)
  {
    ForwardArcCells(cell, official.minPlayers - 1, official.maxPlayers);
  }

  /** For a valid official range the gap mask covers exactly the cells the
      arc leaves out: the two together cover the turn without overlap. */
  lemma MaskCoversComplement(official: PlayersRange, cell: int, width: int, height: int, theme: ColorTheme)
    requires official.Valid() && MaskApplies(official) && 0 <= cell < Steps
    ensures var m := GapMask(width, height, official, theme);
      InArc(cell, m.startEighth, m.endEighth) <==> !official.Contains(cell + 1)
  {
    WrappedArcCells(cell, official.maxPlayers, official.minPlayers - 1);
  }

  /** Unless the range is inverted by a whole turn or more, the mask never
      shares a cell with the arc, valid range or not: their sweeps add up to
      a whole turn or are both empty. */
  lemma MaskNeverOverlapsArc(official: PlayersRange, cell: int, width: int, height: int, theme: ColorTheme)
    requires MaskApplies(official)
    requires official.minPlayers - 1 - official.maxPlayers < 8
    ensures var a := OfficialArc(width, height, official, theme);
            var m := GapMask(width, height, official, theme);
      !(InArc(cell, a.startEighth, a.endEighth) && InArc(cell, m.startEighth, m.endEighth))
  {
    OppositeArcsDisjoint(official.minPlayers - 1, official.maxPlayers, cell);
  }

  /** The arc from s to e and the arc back from e to s share no cell unless
      one of them goes round a whole turn or more. */
  lemma OppositeArcsDisjoint(s: int, e: int, cell: int)
    requires e - s < 8 && s - e < 8
    ensures !(InArc(cell, s, e) && InArc(cell, e, s))
  {
    var d := (e - s) % 8;
    var q := (e - s) / 8;
    assert e - s == 8 * q + d;
    assert Sweep(s, e) == d;
    if d == 0 {
      assert s - e == 8 * (-q);
      assert Sweep(e, s) == 0;
    } else {
      assert s - e == 8 * (-q - 1) + (8 - d);
      assert Sweep(e, s) == 8 - d;
      var x := (cell - s) % 8;
      var y := (cell - e) % 8;
      assert (x - y - d) % 8 == 0;
    }
  }

  /** The reference cases: official ranges (1,8), (1,5) and (3,8) give an
      overlay of arc and clip only; (3,7) and (2,2) add the gap mask. */
  lemma GapMaskReferenceCases(width: int, height: int, community: PlayersRange, preferred: PlayersRange, theme: ColorTheme)
    ensures |OfficialOverlay(width, height, PlayerStickerData(PlayersRange(1, 8), community, preferred), theme)| == 2
    ensures |OfficialOverlay(width, height, PlayerStickerData(PlayersRange(1, 5), community, preferred), theme)| == 2
    ensures |OfficialOverlay(width, height, PlayerStickerData(PlayersRange(3, 8), community, preferred), theme)| == 2
    ensures |OfficialOverlay(width, height, PlayerStickerData(PlayersRange(3, 7), community, preferred), theme)| == 3
    ensures |OfficialOverlay(width, height, PlayerStickerData(PlayersRange(2, 2), community, preferred), theme)| == 3
  {
  }
}

=== FILE: renderer.dfy ===
/** The sticker renderer: the four layers in their fixed order on the 400 by
    400 canvas, and what the finished sticker shows at each distance from
    the centre. */
module Renderer {
  import opened StickerTypes
  import opened Canvas
  import opened Segments
  import opened Overlay
  import opened Difficulty

  /** The background circle fills the canvas height. */
  function BackgroundCircle(width: int, height: int, theme: ColorTheme): (c: Command)
    ensures forall cell, rho ::
      ArcColor(c, cell, rho) == if rho <= height as real / 2.0 then Some(theme.backgroundColor) else None
  {
    Disk(Fill(theme.backgroundColor), height as real / 2.0)
  }

  /** The draw commands of a sticker: background, segments, official
      overlay, difficulty marker, in that order. Any integers are accepted
      as range bounds; nothing is rejected. */
  function RenderSticker(data: StickerData): (r: seq<Command>)
    ensures |r| == 1 + 2 * Steps + |OfficialOverlay(Width, Height, data.playerData, Theme)| + 2
    ensures r[0] == BackgroundCircle(Width, Height, Theme)
  {
    [BackgroundCircle(Width, Height, Theme)]
    + PlayerSegments(Width, Height, data.playerData, Theme)
    + OfficialOverlay(Width, Height, data.playerData, Theme)
    + DifficultyMarker(Width, Height, data.difficulty, Theme)
  }

  /** The sticker drawn when no data is given. */
  function RenderDefault(): seq<Command> {
    RenderSticker(DefaultData)
  }

  /** Each layer is painted completely before the next begins: the
      background first, the sixteen segment commands next, then the
      overlay, and the two difficulty commands last. */
  lemma LayerOrder(data: StickerData)
    ensures RenderSticker(data)[1..1 + 2 * Steps] == PlayerSegments(Width, Height, data.playerData, Theme)
    ensures RenderSticker(data)[1 + 2 * Steps..|RenderSticker(data)| - 2] == OfficialOverlay(Width, Height, data.playerData, Theme)
    ensures RenderSticker(data)[|RenderSticker(data)| - 2..] == DifficultyMarker(Width, Height, data.difficulty, Theme)
  {
    var pd := data.playerData;
    var bg := [BackgroundCircle(Width, Height, Theme)];
    var segments := PlayerSegments(Width, Height, pd, Theme);
    var overlay := OfficialOverlay(Width, Height, pd, Theme);
    var marker := DifficultyMarker(Width, Height, data.difficulty, Theme);
    assert RenderSticker(data) == bg + segments + overlay + marker;
    ConcatSlices(bg, segments, overlay, marker);
  }

  /** The parts of a four-way concatenation are its slices. */
  lemma ConcatSlices<T>(a: seq<T>, b: seq<T>, c: seq<T>, d: seq<T>)
    ensures var r := a + b + c + d;
      && r[|a|..|a| + |b|] == b
      && r[|a| + |b|..|a| + |b| + |c|] == c
      && r[|a| + |b| + |c|..] == d
  {
    var r := a + b + c + d;
    assert r[|a|..|a| + |b|] == b;
    assert r[|a| + |b|..|a| + |b| + |c|] == c;
    assert r[|a| + |b| + |c|..] == d;
  }

  /** The radii of the 400 by 400 canvas. */
  lemma CanvasRadii()
    ensures SegmentRadius(Width, Height) == 180.0
    ensures OverlayRadius(Width, Height) == 100.0
    ensures OverlayRadius(Width, Height) - RingWidth * 0.5 == 95.0
    ensures Ceil(OverlayRadius(Width, Height)) == 100
    ensures Ceil(OverlayRadius(Width, Height) - RingWidth) == 90
    ensures HexagonRadius(Width, Height) == 54.0
  {
  }

  /** The difficulty marker on the 400 by 400 canvas: a hexagon of
      circumradius 54 outlined with a line 4 wide, and text 40 pixels high. */
  lemma MarkerOnCanvas(difficulty: real)
    ensures var d := DifficultyMarker(Width, Height, difficulty, Theme);
      d[0].circumradius == 54.0 && d[0].lineWidth == 4.0 && d[1].fontPx == 40.0
  {
  }

  /** Beyond radius 49, past the apothem of 54 * sqrt(3) / 2 (about 46.8)
      plus half the outline, the marker paints no whole cell arc. */
  lemma MarkerOffRing(difficulty: real, cell: int, rho: real)
    requires rho >= 49.0
    ensures RingColor(DifficultyMarker(Width, Height, difficulty, Theme), cell, rho).None?
  {
    var d := DifficultyMarker(Width, Height, difficulty, Theme);
    MarkerOnCanvas(difficulty);
    HexagonCoverBounds(HexagonFill, HexagonOutline, 4.0, 54.0, rho);
    RingColorSource(d, cell, rho);
  }

  /** Within radius 44, half the outline inside the apothem, the marker
      shows the hexagon's fill over every cell; the text is a thin mark. */
  lemma MarkerCoversCentre(difficulty: real, cell: int, rho: real)
    requires rho <= 44.0
    ensures RingColor(DifficultyMarker(Width, Height, difficulty, Theme), cell, rho) == Some(HexagonFill)
  {
    var d := DifficultyMarker(Width, Height, difficulty, Theme);
    MarkerOnCanvas(difficulty);
    HexagonCoverBounds(HexagonFill, HexagonOutline, 4.0, 54.0, rho);
    RingColorIsLastCover(d, cell, rho, 0);
  }

  /** What the overlay layer alone shows: the clip inside radius 90, the
      gap mask out to 100 where it applies, and the arc's band from 90 to
      100 over the cells it sweeps. */
  lemma OverlayRingColor(pd: PlayerStickerData, cell: int, rho: real)
    ensures var o := pd.official;
      RingColor(OfficialOverlay(Width, Height, pd, Theme), cell, rho)
      == if rho <= 90.0 then Some(Theme.backgroundColor)
         else if MaskApplies(o) && InArc(cell, o.maxPlayers, o.minPlayers - 1) && rho <= 100.0
         then Some(Theme.backgroundColor)
         else if InArc(cell, o.minPlayers - 1, o.maxPlayers) && rho <= 100.0
         then Some(Theme.officialPlayersColor)
         else None
  {
    CanvasRadii();
    var r := OfficialOverlay(Width, Height, pd, Theme);
    var arc := [OfficialArc(Width, Height, pd.official, Theme)];
    var mask := if MaskApplies(pd.official) then [GapMask(Width, Height, pd.official, Theme)] else [];
    var clip := [InnerClip(Width, Height, Theme)];
    assert r == arc + mask + clip;
    RingColorAppend(arc + mask, clip, cell, rho);
    RingColorAppend(arc, mask, cell, rho);
  }

  /** Outside the overlay ring, on the segment ring proper, every cell shows
      the colour its player count is classified to. */
  lemma SegmentZoneColor(data: StickerData, cell: int, rho: real)
    requires 0 <= cell < Steps && 100.0 < rho < 179.0
    ensures RingColor(RenderSticker(data), cell, rho)
         == Some(ShadeColor(Theme, Classify(cell + 1, data.playerData)))
  {
    StickerLayers(data, cell, rho);
    MarkerOffRing(data.difficulty, cell, rho);
    OverlayRingColor(data.playerData, cell, rho);
    CanvasRadii();
    SegmentRingColor(cell, rho, Width, Height, data.playerData, Theme);
  }

  /** At the rim of the segment ring every cell shows the white border. */
  lemma BorderZoneColor(data: StickerData, cell: int, rho: real)
    requires 0 <= cell < Steps && 179.0 <= rho <= 181.0
    ensures RingColor(RenderSticker(data), cell, rho) == Some(Theme.strokeColor)
  {
    StickerLayers(data, cell, rho);
    MarkerOffRing(data.difficulty, cell, rho);
    OverlayRingColor(data.playerData, cell, rho);
    CanvasRadii();
    SegmentRingColor(cell, rho, Width, Height, data.playerData, Theme);
  }

  /** Between the segment ring and the canvas edge only the background
      circle shows. */
  lemma OuterZoneColor(data: StickerData, cell: int, rho: real)
    requires 0 <= cell < Steps && 181.0 < rho <= 200.0
    ensures RingColor(RenderSticker(data), cell, rho) == Some(Theme.backgroundColor)
  {
    StickerLayers(data, cell, rho);
    MarkerOffRing(data.difficulty, cell, rho);
    OverlayRingColor(data.playerData, cell, rho);
    CanvasRadii();
    SegmentRingOutside(cell, rho, Width, Height, data.playerData, Theme);
  }

  /** Past the background circle the canvas stays unpainted. */
  lemma BeyondCircle(data: StickerData, cell: int, rho: real)
    requires 0 <= cell < Steps && rho > 200.0
    ensures RingColor(RenderSticker(data), cell, rho).None?
  {
    StickerLayers(data, cell, rho);
    MarkerOffRing(data.difficulty, cell, rho);
    OverlayRingColor(data.playerData, cell, rho);
    CanvasRadii();
    SegmentRingOutside(cell, rho, Width, Height, data.playerData, Theme);
  }

  /** Inside the overlay ring and clear of the hexagon the inner clip shows
      the background, whatever the ranges are. */
  lemma InnerZoneColor(data: StickerData, cell: int, rho: real)
    requires 49.0 <= rho <= 90.0
    ensures RingColor(RenderSticker(data), cell, rho) == Some(Theme.backgroundColor)
  {
    StickerLayers(data, cell, rho);
    MarkerOffRing(data.difficulty, cell, rho);
    OverlayRingColor(data.playerData, cell, rho);
  }

  /** At the centre the hexagon's fill shows over every cell, whatever the
      ranges are: the marker is drawn last. */
  lemma HexagonZoneColor(data: StickerData, cell: int, rho: real)
    requires rho <= 44.0
    ensures RingColor(RenderSticker(data), cell, rho) == Some(HexagonFill)
  {
    StickerLayers(data, cell, rho);
    MarkerCoversCentre(data.difficulty, cell, rho);
  }

  /** In the overlay band, for any range values: where the gap mask sweeps,
      the background; else where the arc sweeps, the official colour; else
      the segment colour underneath. */
  lemma OfficialBandColor(data: StickerData, cell: int, rho: real)
    requires 0 <= cell < Steps && 90.0 < rho <= 100.0
    ensures var o := data.playerData.official;
      RingColor(RenderSticker(data), cell, rho)
      == if MaskApplies(o) && InArc(cell, o.maxPlayers, o.minPlayers - 1) then Some(Theme.backgroundColor)
         else if InArc(cell, o.minPlayers - 1, o.maxPlayers) then Some(Theme.officialPlayersColor)
         else Some(ShadeColor(Theme, Classify(cell + 1, data.playerData)))
  {
    StickerLayers(data, cell, rho);
    MarkerOffRing(data.difficulty, cell, rho);
    OverlayRingColor(data.playerData, cell, rho);
    CanvasRadii();
    SegmentRingColor(cell, rho, Width, Height, data.playerData, Theme);
  }

  /** In the overlay band, for a valid official range: the official colour
      over the official counts; elsewhere the background when the gap mask
      applies, else the segment colour. */
  lemma OfficialBandColorValid(data: StickerData, cell: int, rho: real)
    requires data.playerData.official.Valid()
    requires 0 <= cell < Steps && 90.0 < rho <= 100.0
    ensures var o := data.playerData.official;
      RingColor(RenderSticker(data), cell, rho)
      == if o.Contains(cell + 1) then Some(Theme.officialPlayersColor)
         else if MaskApplies(o) then Some(Theme.backgroundColor)
         else Some(ShadeColor(Theme, Classify(cell + 1, data.playerData)))
  {
    var o := data.playerData.official;
    OfficialBandColor(data, cell, rho);
    ArcCoversOfficialCells(o, cell, Width, Height, Theme);
    if MaskApplies(o) {
      MaskCoversComplement(o, cell, Width, Height, Theme);
    }
  }

  /** The reference sticker: difficulty 4.5, official 3..7, community 1..6,
      preferred 2..3. Two players get the preferred colour, one player the
      community colour, eight players the default colour, and the gap mask
      is drawn. */
  lemma DefaultScenario(rho: real)
    requires 100.0 < rho < 179.0
    ensures |RenderDefault()| == 22
    ensures Classify(2, DefaultData.playerData) == Preferred
    ensures Classify(1, DefaultData.playerData) == Community
    ensures Classify(8, DefaultData.playerData) == Default
    ensures RingColor(RenderDefault(), 1, rho) == Some(Theme.preferredPlayersColor)
    ensures RingColor(RenderDefault(), 0, rho) == Some(Theme.communityPlayersColor)
    ensures RingColor(RenderDefault(), 7, rho) == Some(Theme.defaultPlayersColor)
  {
    assert MaskApplies(DefaultData.playerData.official);
    assert |OfficialOverlay(Width, Height, DefaultData.playerData, Theme)| == 3;
    SegmentZoneColor(DefaultData, 1, rho);
    SegmentZoneColor(DefaultData, 0, rho);
    SegmentZoneColor(DefaultData, 7, rho);
  }

  /** On the reference sticker the overlay band shows the official colour
      over three to seven players and the background elsewhere. */
  lemma DefaultBand(cell: int, rho: real)
    requires 0 <= cell < Steps && 90.0 < rho <= 100.0
    ensures RingColor(RenderDefault(), cell, rho)
         == if 2 <= cell <= 6 then Some(Theme.officialPlayersColor) else Some(Theme.backgroundColor)
  {
    OfficialBandColorValid(DefaultData, cell, rho);
  }

  /** Splits the painter's reading of a sticker along its layers: the
      marker covers what it paints, the overlay covers the segments, and the
      segments cover the background. */
  lemma StickerLayers(data: StickerData, cell: int, rho: real)
    ensures var pd := data.playerData;
      var bg := [BackgroundCircle(Width, Height, Theme)];
      var segments := PlayerSegments(Width, Height, pd, Theme);
      var overlay := OfficialOverlay(Width, Height, pd, Theme);
      var marker := DifficultyMarker(Width, Height, data.difficulty, Theme);
      RingColor(RenderSticker(data), cell, rho)
      == if RingColor(marker, cell, rho).Some? then RingColor(marker, cell, rho)
         else if RingColor(overlay, cell, rho).Some? then RingColor(overlay, cell, rho)
         else if RingColor(segments, cell, rho).Some? then RingColor(segments, cell, rho)
         else RingColor(bg, cell, rho)
  {
    var pd := data.playerData;
    var bg := [BackgroundCircle(Width, Height, Theme)];
    var segments := PlayerSegments(Width, Height, pd, Theme);
    var overlay := OfficialOverlay(Width, Height, pd, Theme);
    var marker := DifficultyMarker(Width, Height, data.difficulty, Theme);
    assert RenderSticker(data) == bg + segments + overlay + marker;
    RingColorAppend(bg + segments + overlay, marker, cell, rho);
    RingColorAppend(bg + segments, overlay, cell, rho);
    RingColorAppend(bg, segments, cell, rho);
  }
}

=== FILE: segments.dfy ===
/** The ring of eight player-count segments: the colour each segment gets
    and the wedge and label drawn for it. */
module Segments {
  import opened StickerTypes
  import opened Canvas

  /** Which of the three player colours a segment gets. */
  datatype Shade = Preferred | Community | Default

  /** First match wins: a count in the preferred range is preferred, else a
      count in the community range is community, else default. Total for any
      count and any ranges, valid or not. */
  function Classify(count: int, pd: PlayerStickerData): (s: Shade)
    ensures s in Applicable(count, pd)
    ensures forall t :: t in Applicable(count, pd) ==> Rank(t) <= Rank(s)
  {
    if pd.preferred.Contains(count) then Preferred
    else if pd.community.Contains(count) then Community
    else Default
  }

  function ShadeColor(theme: ColorTheme, shade: Shade): Color {
    match shade
    case Preferred => theme.preferredPlayersColor
    case Community => theme.communityPlayersColor
    case Default => theme.defaultPlayersColor
  }

  /** Priority of a shade: the higher rank wins. */
  function Rank(shade: Shade): nat {
    match shade
    case Preferred => 2
    case Community => 1
    case Default => 0
  }

  /** The shades whose range admits the count; default admits every count. */
  function Applicable(count: int, pd: PlayerStickerData): set<Shade> {
    {Default}
    + (if pd.community.Contains(count) then {Community} else {})
    + (if pd.preferred.Contains(count) then {Preferred} else {})
  }

  /** The first-match chain picks the highest-ranked shade whose range
      admits the count. */
  lemma ClassifyIsHighestApplicable(count: int, pd: PlayerStickerData)
    ensures Classify(count, pd) in Applicable(count, pd)
    ensures forall s :: s in Applicable(count, pd) ==> Rank(s) <= Rank(Classify(count, pd))
  {
  }

  /** A count in the preferred range is preferred whatever the community range. */
  lemma PreferredIgnoresCommunity(count: int, pd: PlayerStickerData, community: PlayersRange)
    requires pd.preferred.Contains(count)
    ensures Classify(count, pd) == Preferred
    ensures Classify(count, pd.(community := community)) == Preferred
  {
  }

  /** Outside the preferred range the community range decides between
      community and default. */
  lemma CommunityBeforeDefault(count: int, pd: PlayerStickerData)
    requires !pd.preferred.Contains(count)
    ensures Classify(count, pd) == Community <==> pd.community.Contains(count)
    ensures Classify(count, pd) == Default <==> !pd.community.Contains(count)
  {
  }

  /** Widening the preferred or community range never demotes a segment. */
  lemma WideningNeverDemotes(count: int, pd: PlayerStickerData, wider: PlayerStickerData)
    requires pd.preferred.Contains(count) ==> wider.preferred.Contains(count)
    requires pd.community.Contains(count) ==> wider.community.Contains(count)
    ensures Rank(Classify(count, pd)) <= Rank(Classify(count, wider))
  {
  }

  /** Radius of the segment ring: nine tenths of half the smaller side. */
  function SegmentRadius(width: int, height: int): real {
    (MinSize(width, height) / 2.0) * 0.9
  }

  /** Font size of the player-count labels: 5% of the smaller side. */
  function LabelFontSize(width: int, height: int): real {
    MinSize(width, height) * 0.05
  }

  /** Line width of the white segment borders. */
  const SegmentLineWidth: real := 2.0

  /** The filled and stroked pie of step `step`, which stands for player
      count step + 1. */
  function SegmentWedge(step: int, width: int, height: int, pd: PlayerStickerData, theme: ColorTheme): (w: Command)
    ensures w.Wedge? && w.paint.FillStroke? && w.startEighth == step && w.endEighth - w.startEighth == 1
    ensures w.paint.fill == ShadeColor(theme, Classify(step + 1, pd)) && w.paint.stroke == theme.strokeColor
  {
    Wedge(FillStroke(ShadeColor(theme, Classify(step + 1, pd)), theme.strokeColor, SegmentLineWidth),
          SegmentRadius(width, height), step, step + 1)
  }

  /** The player-count label of step `step`, placed at three quarters of
      the ring radius on the step's middle angle. */
  function SegmentLabel(step: int, width: int, height: int, theme: ColorTheme): (l: Command)
    ensures l.Label? && l.count == step + 1
    ensures forall cell, rho :: ArcColor(l, cell, rho).None?
  {
    Label(step + 1, theme.textColor, LabelFontSize(width, height),
          SegmentRadius(width, height) * 0.75, 2 * step + 1)
  }

  /** The commands of steps `step` to 7, wedge then label for each step. */
  function SegmentsFrom(step: int, width: int, height: int, pd: PlayerStickerData, theme: ColorTheme): (r: seq<Command>)
    requires 0 <= step <= Steps
    ensures |r| == 2 * (Steps - step)
    ensures forall k :: step <= k < Steps ==>
      r[2 * (k - step)] == SegmentWedge(k, width, height, pd, theme)
      && r[2 * (k - step) + 1] == SegmentLabel(k, width, height, theme)
    decreases Steps - step
  {
    if step == Steps then []
    else
      var rest := SegmentsFrom(step + 1, width, height, pd, theme);
      var r := [SegmentWedge(step, width, height, pd, theme), SegmentLabel(step, width, height, theme)] + rest;
      assert r[2..] == rest;
      r
  }

  /** All eight segments: the commands of step k sit at positions 2k and 2k + 1. */
  function PlayerSegments(width: int, height: int, pd: PlayerStickerData, theme: ColorTheme): (r: seq<Command>)
    ensures |r| == 2 * Steps
    ensures forall k :: 0 <= k < Steps ==>
      r[2 * k] == SegmentWedge(k, width, height, pd, theme)
      && r[2 * k + 1] == SegmentLabel(k, width, height, theme)
  {
    SegmentsFrom(0, width, height, pd, theme)
  }

  /** The eight wedges are contiguous, one eighth wide each, start at the top
      and end a full turn later, and each cell of the turn lies under
      exactly one of them: cell c under the wedge of player count c + 1. */
  lemma SegmentsPartitionTurn(width: int, height: int, pd: PlayerStickerData, theme: ColorTheme)
    ensures forall k :: 0 <= k < Steps ==>
      SegmentWedge(k, width, height, pd, theme).endEighth - SegmentWedge(k, width, height, pd, theme).startEighth == 1
    ensures SegmentWedge(0, width, height, pd, theme).startEighth == 0
    ensures SegmentWedge(Steps - 1, width, height, pd, theme).endEighth == Steps
    ensures forall k :: 0 <= k < Steps - 1 ==>
      SegmentWedge(k, width, height, pd, theme).endEighth == SegmentWedge(k + 1, width, height, pd, theme).startEighth
    ensures forall cell, k :: 0 <= cell < Steps && 0 <= k < Steps ==>
      (InArc(cell, SegmentWedge(k, width, height, pd, theme).startEighth, SegmentWedge(k, width, height, pd, theme).endEighth)
       <==> k == cell)
  {
    forall cell, k | 0 <= cell < Steps && 0 <= k < Steps
      ensures k == cell <==> InArc(cell, SegmentWedge(k, width, height, pd, theme).startEighth,
                                   SegmentWedge(k, width, height, pd, theme).endEighth)
    {
      ForwardArcCells(cell, k, k + 1);
    }
  }

  /** Each label names its segment's player count and sits on the middle
      of the segment's span, at three quarters of the ring radius. */
  lemma LabelAtSegmentMiddle(k: int, width: int, height: int, pd: PlayerStickerData, theme: ColorTheme)
    requires 0 <= k < Steps
    ensures SegmentLabel(k, width, height, theme).count == k + 1
    ensures SegmentLabel(k, width, height, theme).midSixteenth
         == SegmentWedge(k, width, height, pd, theme).startEighth + SegmentWedge(k, width, height, pd, theme).endEighth
    ensures SegmentLabel(k, width, height, theme).distance == 0.75 * SegmentWedge(k, width, height, pd, theme).radius
  {
  }

  /** Only the wedge of a cell paints over that cell. */
  lemma WedgeColor(k: int, cell: int, rho: real, width: int, height: int, pd: PlayerStickerData, theme: ColorTheme)
    requires 0 <= cell < Steps && 0 <= k < Steps
    ensures ArcColor(SegmentWedge(k, width, height, pd, theme), cell, rho)
         == if k == cell
            then PaintColor(SegmentWedge(cell, width, height, pd, theme).paint,
                            rho <= SegmentRadius(width, height), rho - SegmentRadius(width, height))
            else None
  {
    ForwardArcCells(cell, k, k + 1);
  }

  /** Over cell `cell`, only the wedge of that cell paints anything. */
  lemma SegmentCommandColor(j: int, cell: int, rho: real, width: int, height: int, pd: PlayerStickerData, theme: ColorTheme)
    requires 0 <= cell < Steps && 0 <= j < 2 * Steps
    ensures ArcColor(PlayerSegments(width, height, pd, theme)[j], cell, rho)
         == if j == 2 * cell
            then PaintColor(SegmentWedge(cell, width, height, pd, theme).paint,
                            rho <= SegmentRadius(width, height), rho - SegmentRadius(width, height))
            else None
  {
    var r := PlayerSegments(width, height, pd, theme);
    var k := j / 2;
    assert 0 <= k < Steps;
    if j == 2 * k {
      assert r[j] == SegmentWedge(k, width, height, pd, theme);
      WedgeColor(k, cell, rho, width, height, pd, theme);
    } else {
      assert j == 2 * k + 1;
      assert r[j] == SegmentLabel(k, width, height, theme);
    }
  }

  /** Seen alone, the segment ring shows the classified colour of each cell
      inside the white border band, and the border colour within the band. */
  lemma SegmentRingColor(cell: int, rho: real, width: int, height: int, pd: PlayerStickerData, theme: ColorTheme)
    requires 0 <= cell < Steps
    requires rho <= SegmentRadius(width, height) + SegmentLineWidth / 2.0
    ensures rho < SegmentRadius(width, height) - SegmentLineWidth / 2.0 ==>
      RingColor(PlayerSegments(width, height, pd, theme), cell, rho)
      == Some(ShadeColor(theme, Classify(cell + 1, pd)))
    ensures rho >= SegmentRadius(width, height) - SegmentLineWidth / 2.0 ==>
      RingColor(PlayerSegments(width, height, pd, theme), cell, rho) == Some(theme.strokeColor)
  {
    var r := PlayerSegments(width, height, pd, theme);
    var radius := SegmentRadius(width, height);
    var fill := ShadeColor(theme, Classify(cell + 1, pd));
    SegmentCommandColor(2 * cell, cell, rho, width, height, pd, theme);
    assert ArcColor(r[2 * cell], cell, rho)
        == PaintColor(FillStroke(fill, theme.strokeColor, SegmentLineWidth), rho <= radius, rho - radius);
    LaterCommandsMissCell(cell, rho, width, height, pd, theme);
    RingColorIsLastCover(r, cell, rho, 2 * cell);
  }

  /** No segment command after the wedge of a cell paints over that cell. */
  lemma LaterCommandsMissCell(cell: int, rho: real, width: int, height: int, pd: PlayerStickerData, theme: ColorTheme)
    requires 0 <= cell < Steps
    ensures forall j :: 2 * cell < j < 2 * Steps ==>
      ArcColor(PlayerSegments(width, height, pd, theme)[j], cell, rho).None?
  {
    forall j | 2 * cell < j < 2 * Steps
      ensures ArcColor(PlayerSegments(width, height, pd, theme)[j], cell, rho).None?
    {
      SegmentCommandColor(j, cell, rho, width, height, pd, theme);
    }
  }

  /** Beyond the border band the segment ring paints nothing. */
  lemma SegmentRingOutside(cell: int, rho: real, width: int, height: int, pd: PlayerStickerData, theme: ColorTheme)
    requires 0 <= cell < Steps
    requires rho > SegmentRadius(width, height) + SegmentLineWidth / 2.0
    ensures RingColor(PlayerSegments(width, height, pd, theme), cell, rho).None?
  {
    var r := PlayerSegments(width, height, pd, theme);
    forall j | 0 <= j < |r|
      ensures ArcColor(r[j], cell, rho).None?
    {
      SegmentCommandColor(j, cell, rho, width, height, pd, theme);
    }
    RingColorSource(r, cell, rho);
  }
}

=== FILE: types.dfy ===
/** The values the sticker renderer consumes: three player-count ranges, a
    difficulty score, the colour theme and the fixed canvas size. */
module StickerTypes {

  /** A CSS colour string such as "#264653". */
  type Color = string

  datatype Option<T> = None | Some(value: T)

  /** Number of segments of the sticker, one per player count 1..8. */
  const Steps: int := 8

  /** The canvas the renderer draws on is always 400 by 400. */
  const Width: int := 400
  const Height: int := 400

  /** An inclusive range of player counts. Nothing forces
      1 <= minPlayers <= maxPlayers <= 8: the renderer accepts any integers. */
  datatype PlayersRange = PlayersRange(minPlayers: int, maxPlayers: int) {

    /** True when player count p lies in the range, both bounds included. */
    predicate Contains(p: int) {
      minPlayers <= p <= maxPlayers
    }

    /** The shape a range is meant to have, though nothing checks it. */
    predicate Valid() {
      1 <= minPlayers <= maxPlayers <= Steps
    }
  }

  /** The three ranges of one game; they may overlap in any way. */
  datatype PlayerStickerData = PlayerStickerData(
    official: PlayersRange,
    community: PlayersRange,
    preferred: PlayersRange)

  datatype StickerData = StickerData(
    game: string,
    difficulty: real,
    playerData: PlayerStickerData)

  datatype ColorTheme = ColorTheme(
    backgroundColor: Color,
    strokeColor: Color,
    textColor: Color,
    difficultyColor: Color,
    defaultPlayersColor: Color,
    officialPlayersColor: Color,
    communityPlayersColor: Color,
    preferredPlayersColor: Color)

  /** The data drawn when the renderer is called without an argument. */
  const DefaultData: StickerData := StickerData(
    "Test Game",
    4.5,
    PlayerStickerData(PlayersRange(3, 7), PlayersRange(1, 6), PlayersRange(2, 3)))

  /** The palette the renderer builds on every call. */
  const Theme: ColorTheme := ColorTheme(
    "#264653", "#ffffff", "#264653", "#264653",
    "#e9c46a", "#f4a261", "#e9c46a", "#2a9d8f")

  /** The smaller side of the canvas; every radius and font size scales with it. */
  function MinSize(width: int, height: int): real {
    if height < width then height as real else width as real
  }
}
